=== FILE: README.md ===
# CVE watcher: the watch-and-dedupe core in Dafny

The watcher keeps two SQLite tables: `watch`, the product keywords to monitor, and `seen`,
the CVE ids already reported. Each poll cycle (`run_once`) goes through the watched products
in sorted order. For each product it asks the NVD 2.0 keyword search for at most five
candidates. A candidate whose id is truthy and not yet in `seen` is recorded there and added
to the product's batch. A non-empty batch goes out as one chat message, one line per CVE,
with each summary cut to 120 characters.

The model is functional. The tables are a value `Store.Db`: the `watch` rows in insertion
order, kept duplicate-free by `Store.Valid` (the `UNIQUE` constraint), and the `seen` map from
id to `(product, published)`. Every table operation is a pure function on that value. A cycle
is `Poll.RunOnce`. It takes the tables, a search oracle and a notifier oracle. It returns the
new tables, the messages handed to the notifier in order, and the exception that ended the
cycle early, if any. The NVD response decoder is `Cve.Decode`, a function over a small JSON
datatype (`Json.Value`). It fails exactly where the Python code would raise.

Files, one module each:

- `outcome.dfy`: `Option`, `Result` and the error kinds.
- `json.dfy`: decoded JSON values, Python truthiness, and `Lookup`, a path-based reading of a document.
- `seqs.dfy`: repetition-free sequences and the subsequence relation.
- `lex.dfy`: code-point string order and the sort behind `ORDER BY product`.
- `db.dfy`: module `Store`, the two tables.
- `cve.dfy`: the search response decoder.
- `poll.dfy`: `run_once`.
- `scenario.dfy`: one concrete cycle, worked through.

Oracles. `Cve.Fetch` stands for the HTTP GET with `raise_for_status` and `r.json()`.
`Cve.Search` composes it with the decoder. `Poll.Searcher` is any function from keyword and
limit to records or an error, and `Cve.Search` with some fetch is one such function. `Poll.Deliver`
stands for `webex.notify`. It answers true when the message was posted or when the room or the
token is not configured (the call is then a no-op), and false when the request raised.

Keys. The `seen.cve_id` column has TEXT affinity, so a bound id is stored and compared as
text. `Poll.IdKey` gives that text: a string as is, an integer as its decimal digits, a
boolean as `1` or `0`. sqlite3 cannot bind a list, an object, or an integer outside the
signed 64-bit range (it raises `OverflowError` for the latter), so binding such an id, or
such a publication stamp in `mark_seen`, raises.

## Model

| member | source | states |
|---|---|---|
| Store.AddProduct | app/db.py:14-17 | afterwards the watched keywords are the old ones plus `product`; an already watched keyword leaves the tables unchanged; `seen` is never touched; uniqueness of rows is preserved |
| Store.AddProductIdempotent | app/db.py:16 | adding a keyword twice is the same as adding it once |
| Store.ListProducts | app/db.py:19-22 | the listing is strictly ascending and contains exactly the watched keywords |
| Store.ListProductsDependsOnlyOnSet | app/db.py:21 | two tables watching the same keywords list them identically, whatever the insertion order |
| Store.ListProductsCount | app/db.py:21 | over rows kept unique by the constraint, the listing has one entry per row and no repeats |
| Store.IsSeen | app/db.py:30-33 | `is_seen` answers yes exactly when some stored row of `seen` carries the id |
| Store.EmptyTables | app/db.py:4-12 | freshly created tables satisfy the constraints, list no keyword and have seen no id |
| Store.MarkSeen | app/db.py:24-28 | afterwards the id is seen; an id already seen leaves the tables unchanged; a new id is stored with the given product and stamp; no other id and no watched keyword changes |
| Store.FirstWriterWins | app/db.py:26 | a second `mark_seen` of the same id, with any product and stamp, changes nothing, so the first stored row stays |
| Store.SeenAfterMark | app/db.py:24-33 | after `mark_seen(x, …)`, `is_seen` is true of `x` and answers as before for every other id |
| Store.SeenUnaffectedByWatch | app/db.py:30-33 | `is_seen` answers the same before and after a keyword is added |
| Lex.Sort | app/db.py:21 | the result is strictly ascending and has the same members as the input |
| Lex.SortedUnique | app/db.py:21 | two strictly ascending sequences with the same members are equal, so the listing is determined by the set of keywords |
| Lex.SortedSubseq | app/db.py:21 | a subsequence of a strictly ascending listing is strictly ascending |
| Cve.DecodeItem | app/cve.py:12-17 | one element decodes exactly when it has the accepted shape, and then its record carries `cve.id`, `cve.published` (null when absent) and the first description's `value` ("" when the descriptions are missing or empty, or the first has no `value`) |
| Cve.DecodeAll | app/cve.py:11-17 | the element loop succeeds exactly when every element decodes, and yields one record per element, in element order |
| Cve.DecodeAllCorrect | app/cve.py:11-17 | the element loop succeeds exactly when every element is shaped, and its i-th record describes the i-th element |
| Cve.Decode | app/cve.py:11-18 | a body decodes exactly when it is shaped; with no `vulnerabilities` key the result is empty; with a list there is one describing record per element, in order |
| Cve.Search | app/cve.py:5-18 | a failed request is the search's failure; a fetched body gives records exactly when it is shaped, and then one record describing each element of its `vulnerabilities` list, in order, or none when that is not a list |
| Poll.IdKey | app/schedule_job.py:10-11 | an id has a ledger key exactly when it is a string, a boolean or an integer within 64 bits (a null binds as NULL and matches no row; a list, an object or a wider integer cannot be bound); a string is its own key; an integer's key is non-empty text that starts with `-` exactly for negatives |
| Poll.IntegerIdsKeyedApart | app/db.py:11 | two integer ids compare equal in the TEXT column only when they are the same integer |
| Poll.KeyOf | app/schedule_job.py:10 | a falsy id gets no key and is skipped; a key is the id's stored text and is never empty |
| Poll.Truncate | app/schedule_job.py:14 | the summary kept is a prefix of at most 120 characters, the whole summary when it is shorter |
| Poll.VisitRecord | app/schedule_job.py:10-12 | a falsy id changes nothing; a truthy id that is not yet seen is recorded with the product and its stamp and joins the batch; the step raises exactly when the id is truthy and either cannot be bound or is new with a stamp that cannot be bound, and then nothing changes |
| Poll.RecordedChain | app/schedule_job.py:9-12 | two stretches of the candidate loop, each recording its batch's keys once and touching nothing older, make one stretch with the batches joined |
| Poll.ScanRecords | app/schedule_job.py:8-12 | the loop over one product's candidates leaves the watched keywords alone, keeps every older entry, records each batch key once with that product and the candidate's stamp, records no key outside the batch, and on a clean run records every truthy id |
| Poll.ScanKeepsOrder | app/schedule_job.py:9-12 | the batch is a subsequence of the candidates with usable ids, in result order |
| Poll.ScanKeepsEarlierMarks | app/schedule_job.py:9-12 | marks are never rolled back: ids recorded by a stretch of the loop that ran through stay recorded, unchanged, whatever later candidates do, raising included |
| Poll.ScanStopsAtFailure | app/schedule_job.py:9-12 | an exception ends the candidate loop at the candidate that raised: when the earlier candidates ran through and `rs[i]` raises, the scan returns that exception with the ledger and batch as they were before `rs[i]`, so later candidates are neither recorded nor batched |
| Poll.ScanClean | app/schedule_job.py:9-12 | the candidate loop does not raise when every candidate is usable: a falsy id, or a bindable id and stamp and a string summary |
| Poll.LineOf | app/schedule_job.py:14 | a line is built exactly when the summary is a string, and then carries the entry's key, id and stamp and the first min(length, 120) characters of the summary |
| Poll.FormatLines | app/schedule_job.py:14 | lines are built exactly when every summary can be sliced, one line per batch entry, in batch order |
| Poll.FormatKeepsOrder | app/schedule_job.py:14 | formatting a subsequence of the candidates yields a subsequence of their lines |
| Poll.BatchMessage | app/schedule_job.py:13-15 | the message for a clean non-empty batch has lines, lists some of the product's candidate lines in order, and carries exactly the batch's keys, all newly recorded |
| Poll.PollProduct | app/schedule_job.py:7-15 | handling one product leaves the watched keywords alone and keeps older entries; at most one message, for that product; the keys it carries are distinct and newly recorded; a clean run notifies every key it recorded and records every truthy id; a failed search leaves the tables untouched and is the product's error; a message that was built fails exactly when the notifier refuses it; after a successful search the tables are those the candidate loop left, whatever happens later in the step |
| Poll.NotifierIrrelevant | app/schedule_job.py:11-15 | `mark_seen` runs before `notify`: the notifier's answer changes neither the tables nor the message handed to it |
| Poll.PollProductClean | app/schedule_job.py:7-15 | a product whose search succeeds with usable candidates, under a notifier that never fails, is handled without an exception |
| Poll.PollProductReports | app/schedule_job.py:13-15 | a message is sent only for a non-empty batch, and its lines are some of the product's candidate lines in result order |
| Poll.RunProducts | app/schedule_job.py:6-15 | the cycle over a product list never changes the watched keywords, keeps older entries, sends only for listed products, and notifies each newly recorded key at most once |
| Poll.RunProductsClean | app/schedule_job.py:6-15 | a cycle over products whose searches all succeed with usable candidates, under a notifier that never fails, runs to the end |
| Poll.RunOnceClean | app/schedule_job.py:5-15 | the same for `run_once` over the watched products |
| Poll.RunProductsReports | app/schedule_job.py:6-15 | every message of a cycle reports lines from its own product's search results |
| Poll.RunOnce | app/schedule_job.py:5-15 | a cycle never changes the watched keywords or older entries, messages only watched products, and notifies each newly recorded key at most once |
| Poll.RunProductsFollowsList | app/schedule_job.py:6 | the products messaged form a subsequence of the product list |
| Poll.RunProductsOrdered | app/schedule_job.py:6 | over a strictly ascending list, messages go out in ascending product order, so there is at most one per product |
| Poll.RunOnceOrdered | app/schedule_job.py:6 | messages of a cycle follow `list_products()` order, one per product at most |
| Poll.RunProductsComplete | app/schedule_job.py:9-12 | after a clean cycle every listed product's search succeeded and every truthy id it returned is recorded |
| Poll.RunProductsNotifiesAllNew | app/schedule_job.py:11-15 | after a clean cycle every newly recorded id was in some message |
| Poll.SearchFailureEndsCycle | app/schedule_job.py:7 | once the search for a product fails, the cycle ends with an error and only earlier products were messaged |
| Poll.FailureEndsCycle | app/schedule_job.py:6-15 | when the products before position `i` ran through and handling `products[i]` raises (search, binding, formatting or notification), the cycle ends there with that exception, the tables as that step left them, and the messages sent so far followed by the refused one |
| Poll.ScanQuiet | app/schedule_job.py:10 | a candidate list whose truthy ids are all recorded changes nothing and batches nothing |
| Poll.RunProductsQuiet | app/schedule_job.py:10-13 | a cycle whose searches return only recorded ids sends nothing and changes nothing |
| Poll.RunOnceIdempotent | app/schedule_job.py:10 | after a clean cycle, a second cycle over the same search results sends nothing and leaves the tables unchanged, whatever either notifier does |
| Poll.NeverRenotified | app/schedule_job.py:10-15 | an id carried by a message in one cycle is never carried by a message of the next, even if its notification failed |
| Poll.ScanFirstWriter | app/schedule_job.py:9-11 | a key newly recorded by a product's loop was surfaced by it, and stores the stamp of the first candidate carrying it |
| Poll.PollProductFirstWriter | app/schedule_job.py:7-11 | a product records a key only when its search surfaced it, with the first such candidate's stamp; a clean product that did not record it did not surface it |
| Poll.FirstProductWins | app/schedule_job.py:6-11 | an id newly recorded in a cycle is stored under the first listed product whose search surfaced it, with that product's first stamp for it, and every search before that product succeeded |
| Poll.FalsyIdsIgnored | app/schedule_job.py:10 | removing candidates with falsy ids changes neither the tables, nor the batch, nor the outcome of a product's loop |
| Poll.SentLinesRenderResults | app/schedule_job.py:14 | every line sent renders one of its product's search results with a truthy id, and no summary in it exceeds 120 characters |
| Scenario.RepeatedFeedDecodes | app/cve.py:11-17 | a body listing the same vulnerability twice decodes to that record twice |
| Scenario.RepeatedResultReportedOnce | app/schedule_job.py:9-15 | one watched product whose search returns the same CVE twice: the cycle records it once and sends one message with one line |

## Left out

- HTTP: `requests.get`, `raise_for_status` and `r.json()` in `cve.search`, and the POST in `webex.notify`, are the oracles `Cve.Fetch`, `Poll.Searcher` and `Poll.Deliver`. Their failures are error results.
- SQLite connections, `DB_PATH` and directory creation are left out. The tables `init` creates on a new database are `Store.Empty`; their constraints are `Store.Valid` and the keys of the `seen` map.
- The FastAPI front end in `app/main.py` is a thin wrapper around the table operations and is not modelled.
- The scheduler loop, `time.sleep` and `POLL_MINUTES` are not modelled. A cycle is one call of `Poll.RunOnce`, and several cycles are several calls.
- `webex.notify` reads its credentials from the environment. That lookup, and its no-op when unconfigured, sit inside the `Poll.Deliver` oracle.
- The text of a message (emoji, Markdown, the trailing ellipsis, the newline join) is not modelled. A message is its product plus its lines, each holding id, stamp and truncated summary.
- JSON numbers are integers only. Floats are left out.
- Races between the `is_seen` check and the `mark_seen` write across processes are not modelled. The code is a sequential read-then-write.
- Poll.LineOf: a summary that is not a string is an error. Python slices a list summary (`[:120]` works on lists) and renders it, so for that case the model raises where the code does not.
- Poll.FormatLines: a new record whose summary is not a string counts as an error. Python raises for null or numeric summaries, but it would slice a list summary and render it. That case is treated as an error too.
- Store.MarkSeen: the stamp is stored as the JSON value it was. SQLite's conversion of a number stamp to text in the TEXT column is not modelled. Nothing in the cycle reads the stamp back.
- Cve.Search: the result limit is passed to the fetch oracle, but the model does not assume the server returns at most that many elements.
- Any exception (search, binding, formatting, notification) ends the cycle: the code has no per-product isolation. See `Poll.FailureEndsCycle` and `Poll.SearchFailureEndsCycle`.
- `add_product` does no validation: the empty keyword is watched like any other.
- `mark_seen` returns nothing. The `is_seen` check decides what joins the batch.
- `run_once` returns nothing. Its outcome is the `Poll.Cycle` the model returns.

=== FILE: cve.dfy ===
/** The NVD 2.0 keyword search: the HTTP request is an oracle, the mapping from the decoded
    response to `{id, published, summary}` records is modelled exactly, including the places
    where the Python code raises on an unexpected shape. */
module Cve {
  import opened Outcome
  import opened Json

  /** One candidate record. Each field is whatever JSON value sat at that place
      (`Null` when it was missing). */
  datatype Record = Record(id: Value, published: Value, summary: Value)

  /** The HTTP GET with `keywordSearch` and `resultsPerPage`, `raise_for_status` and `r.json()`:
      given keyword and limit, the decoded body or the failure. */
  type Fetch = (string, nat) -> Result<Value>

  /** `for x in v` over a decoded value, followed by `.get` on each `x`: only a list yields
      elements; an empty object or empty string yields none; anything else raises (a
      non-empty object or string yields strings, which have no `.get`; scalars are not
      iterable). */
  function Elements(v: Value): Result<seq<Value>> {
    match v
    case Arr(items) => Success(items)
    case Obj(fields) => if fields == map[] then Success([]) else Failure(MalformedPayload)
    case Str(s) => if s == [] then Success([]) else Failure(MalformedPayload)
    case _ => Failure(MalformedPayload)
  }

  /** `(cve.get("descriptions") or [{}])[0].get("value", "")`. */
  function FirstDescription(cve: map<string, Value>): Result<Value> {
    var d := Get(cve, "descriptions", Null);
    if !Truthy(d) then Success(Str(""))
    else match d
      case Arr(items) =>
        (match items[0]
         case Obj(first) => Success(Get(first, "value", Str("")))
         case _ => Failure(MalformedPayload))
      case _ => Failure(MalformedPayload)
  }

  /** One element of `vulnerabilities`; `item.get("cve", {})`, then the three fields. It
      decodes exactly when the element has the accepted shape, and then describes it. */
  function DecodeItem(item: Value): (r: Result<Record>)
    ensures r.Success? <==> ItemShaped(item)
    ensures r.Success? ==> Describes(r.value, item)
  {
    match item
    case Obj(fields) =>
      LookupField(item, "cve");
      (match Get(fields, "cve", Obj(map[]))
       case Obj(cve) =>
         LookupNested(item, "cve", "id");
         LookupNested(item, "cve", "published");
         LookupNested(item, "cve", "descriptions");
         LookupField(Obj(cve), "id");
         LookupField(Obj(cve), "published");
         LookupField(Obj(cve), "descriptions");
         var d := Get(cve, "descriptions", Null);
         if d.Arr? && d.items != [] then
           LookupField(d.items[0], "value");
           DecodeFields(cve)
         else DecodeFields(cve)
       case _ => Failure(MalformedPayload))
    case _ => Failure(MalformedPayload)
  }

  /** The record read from a `cve` object, or the error its descriptions raise. */
  function DecodeFields(cve: map<string, Value>): Result<Record> {
    match FirstDescription(cve)
    case Success(summary) => Success(Record(Get(cve, "id", Null), Get(cve, "published", Null), summary))
    case Failure(e) => Failure(e)
  }

  // ---- Reference reading of a response, stated with Lookup only ----

  /** The shape of an element that the decoder accepts. */
  predicate ItemShaped(item: Value) {
    && item.Obj?
    && (var cve := Lookup(item, ["cve"]);
        cve.None? || cve.value.Obj?)
    && (var d := Lookup(item, ["cve", "descriptions"]).GetOr(Null);
        !Truthy(d) || (d.Arr? && d.items[0].Obj?))
  }

  /** The shape of a response that the decoder accepts. */
  predicate Shaped(data: Value) {
    && data.Obj?
    && (match Lookup(data, ["vulnerabilities"])
        case None => true
        case Some(Arr(items)) => forall i :: 0 <= i < |items| ==> ItemShaped(items[i])
        case Some(Obj(fields)) => fields == map[]
        case Some(Str(s)) => s == []
        case Some(_) => false)
  }

  /** `rec` carries the fields the response holds for `item`: `cve.id` and `cve.published`
      (null when absent), and the `value` of the first description ("" when there is no
      description or the first has no `value`). */
  predicate Describes(rec: Record, item: Value) {
    && rec.id == Lookup(item, ["cve", "id"]).GetOr(Null)
    && rec.published == Lookup(item, ["cve", "published"]).GetOr(Null)
    && (var d := Lookup(item, ["cve", "descriptions"]).GetOr(Null);
        && (!Truthy(d) ==> rec.summary == Str(""))
        && (d.Arr? && d.items != [] ==> rec.summary == Lookup(d.items[0], ["value"]).GetOr(Str(""))))
  }

  /** Decodes every element, in order; the first failure aborts. */
  function DecodeAll(items: seq<Value>): (r: Result<seq<Record>>)
    ensures r.Success? <==> forall i :: 0 <= i < |items| ==> DecodeItem(items[i]).Success?
    ensures r.Success? ==> |r.value| == |items|
    ensures r.Success? ==> forall i :: 0 <= i < |items| ==> DecodeItem(items[i]) == Success(r.value[i])
  {
    if items == [] then Success([])
    else
      match DecodeItem(items[0])
      case Failure(e) => Failure(e)
      case Success(rec) =>
        match DecodeAll(items[1..])
        case Failure(e) =>
          assert forall i :: 0 <= i < |items[1..]| ==> items[1..][i] == items[i + 1];
          Failure(e)
        case Success(rest) =>
          assert forall i :: 1 <= i < |items| ==> items[i] == items[1..][i - 1];
          Success([rec] + rest)
  }

  /** The decoder accepts exactly the lists whose elements are all shaped, and then yields
      one describing record per element. */
  lemma DecodeAllCorrect(items: seq<Value>)
    ensures DecodeAll(items).Success? <==> forall i :: 0 <= i < |items| ==> ItemShaped(items[i])
    ensures DecodeAll(items).Success? ==>
              forall i :: 0 <= i < |items| ==> Describes(DecodeAll(items).value[i], items[i])
  {

  }

  /** The loop of `search` over `data.get("vulnerabilities", [])`. */
  function Decode(data: Value): (r: Result<seq<Record>>)
    ensures r.Success? <==> Shaped(data)
    ensures data.Obj? && "vulnerabilities" !in data.fields ==> r == Success([])
    ensures r.Success? && "vulnerabilities" in data.fields ==>
              match data.fields["vulnerabilities"]
              case Arr(items) =>
                |r.value| == |items| && forall i :: 0 <= i < |items| ==> Describes(r.value[i], items[i])
              case _ => r.value == []
  {
    match data
    case Obj(fields) =>
      assert Lookup(data, ["vulnerabilities"]) == (if "vulnerabilities" in fields then Some(fields["vulnerabilities"]) else None) by {
        assert ["vulnerabilities"][1..] == [];
      }
      (match Elements(Get(fields, "vulnerabilities", Arr([])))
       case Success(items) =>
         DecodeAllCorrect(items);
         DecodeAll(items)
       case Failure(e) => Failure(e))
    case _ => Failure(MalformedPayload)
  }

  /** `cve.search(keyword, limit)`: the request, then the decoding of its body. The records
      returned describe the elements of the body's `vulnerabilities` list, in order. */
  function Search(fetch: Fetch, keyword: string, limit: nat): (r: Result<seq<Record>>)
    ensures fetch(keyword, limit).Failure? ==> r == Failure(fetch(keyword, limit).error)
    ensures fetch(keyword, limit).Success? ==> (r.Success? <==> Shaped(fetch(keyword, limit).value))
    ensures fetch(keyword, limit).Success? && r.Success? ==>
              match Lookup(fetch(keyword, limit).value, ["vulnerabilities"])
              case Some(Arr(items)) =>
                |r.value| == |items| && forall i :: 0 <= i < |items| ==> Describes(r.value[i], items[i])
              case _ => r.value == []
  {
    match fetch(keyword, limit)
    case Success(data) =>
      LookupField(data, "vulnerabilities");
      Decode(data)
    case Failure(e) => Failure(e)
  }
}

=== FILE: db.dfy ===
/** The two SQLite tables of the watcher, as values.
    `watch` holds the monitored product keywords (`product TEXT UNIQUE`), in row order;
    `seen` maps each recorded CVE id (`cve_id TEXT PRIMARY KEY`) to the product that first
    surfaced it and its publication stamp. Each operation opens, uses and closes its own
    connection, so each is one state transition here. */
module Store {
  import opened Json
  import Lex
  import Seqs

  /** One row of the `seen` table beside its key. */
  datatype Entry = Entry(product: string, published: Value)

  datatype Db = Db(watch: seq<string>, seen: map<string, Entry>)

  /** The uniqueness constraint on `watch.product`. */
  predicate Valid(db: Db) {
    Seqs.Distinct(db.watch)
  }

  /** Freshly created tables (`init` on a missing database file). */
  const Empty := Db([], map[])

  /** Fresh tables satisfy the constraints, watch nothing and have seen nothing. */
  lemma EmptyTables(id: string)
    ensures Valid(Empty)
    ensures ListProducts(Empty) == []
    ensures !IsSeen(Empty, id)
  {
  }

  /** `INSERT OR IGNORE INTO watch(product)`: a keyword already watched is a silent no-op.
      No validation: the empty keyword is accepted like any other. */
  function AddProduct(db: Db, product: string): (r: Db)
    ensures forall p :: p in r.watch <==> p == product || p in db.watch
    ensures product in db.watch ==> r == db
    ensures r.seen == db.seen
    ensures Valid(db) ==> Valid(r)
  {
    if product in db.watch then db else db.(watch := db.watch + [product])
  }

  /** `SELECT product FROM watch ORDER BY product`: every watched keyword once, ascending. */
  function ListProducts(db: Db): (r: seq<string>)
    ensures Lex.StrictlySorted(r)
    ensures forall p :: p in r <==> p in db.watch
  {
    Lex.Sort(db.watch)
  }

  /** `SELECT 1 FROM seen WHERE cve_id=?` found a row: some stored row carries `id`. */
  predicate IsSeen(db: Db, id: string): (found: bool)
    ensures found <==> exists row :: row in db.seen.Items && row.0 == id
  {
    if id in db.seen then
      assert (id, db.seen[id]) in db.seen.Items;
      true
    else false
  }

  /** `INSERT OR IGNORE INTO seen`: records `id` unless it is already recorded, in which
      case the earlier row stays as it is. */
  function MarkSeen(db: Db, id: string, product: string, published: Value): (r: Db)
    ensures IsSeen(r, id)
    ensures IsSeen(db, id) ==> r == db
    ensures !IsSeen(db, id) ==> r.seen[id] == Entry(product, published)
    ensures forall k :: k != id ==> (k in r.seen <==> k in db.seen)
    ensures forall k :: k != id && k in db.seen ==> r.seen[k] == db.seen[k]
    ensures r.watch == db.watch
  {
    if id in db.seen then db else db.(seen := db.seen[id := Entry(product, published)])
  }

  /** Adding a product twice is the same as adding it once. */
  lemma AddProductIdempotent(db: Db, product: string)
    ensures AddProduct(AddProduct(db, product), product) == AddProduct(db, product)
  {
  }

  /** The listing depends only on which keywords are watched, not on insertion order. */
  lemma ListProductsDependsOnlyOnSet(a: Db, b: Db)
    requires forall p :: p in a.watch <==> p in b.watch
    ensures ListProducts(a) == ListProducts(b)
  {
    Lex.SortedUnique(ListProducts(a), ListProducts(b));
  }

  /** Over valid tables the listing has exactly one entry per row. */
  lemma ListProductsCount(db: Db)
    requires Valid(db)
    ensures |ListProducts(db)| == |db.watch|
    ensures Seqs.Distinct(ListProducts(db))
  {
    var r := ListProducts(db);
    Lex.SortedIsDistinct(r);
    Seqs.DistinctCardinality(r);
    Seqs.DistinctCardinality(db.watch);
    assert (set x | x in r) == (set x | x in db.watch);
  }

  /** The first `mark_seen` of an id wins: a later one, whatever its product and
      publication stamp, changes nothing. */
  lemma FirstWriterWins(db: Db, id: string, p1: string, d1: Value, p2: string, d2: Value)
    requires !IsSeen(db, id)
    ensures MarkSeen(MarkSeen(db, id, p1, d1), id, p2, d2) == MarkSeen(db, id, p1, d1)
    ensures MarkSeen(MarkSeen(db, id, p1, d1), id, p2, d2).seen[id] == Entry(p1, d1)
  {
  }

  /** After `mark_seen(x, …)`, `is_seen` answers yes for `x` and as before for every other id. */
  lemma SeenAfterMark(db: Db, x: string, product: string, published: Value, y: string)
    ensures IsSeen(MarkSeen(db, x, product, published), y) <==> y == x || IsSeen(db, y)
  {
  }

  /** Watching a product never touches the seen ledger's answers. */
  lemma SeenUnaffectedByWatch(db: Db, product: string, y: string)
    ensures IsSeen(AddProduct(db, product), y) == IsSeen(db, y)
  {
  }
}

=== FILE: json.dfy ===
/** Decoded JSON values as Python's `json` module hands them to the program. */
module Json {
  import opened Outcome

  /** A decoded JSON document. Objects are dictionaries (a duplicate key keeps its last value);
      numbers are integers. */
  datatype Value =
    | Null
    | Bool(b: bool)
    | Num(n: int)
    | Str(s: string)
    | Arr(items: seq<Value>)
    | Obj(fields: map<string, Value>)

  /** Python truthiness: `None`, `False`, `0`, `""`, `[]` and `{}` are falsy. */
  predicate Truthy(v: Value) {
    match v
    case Null => false
    case Bool(b) => b
    case Num(n) => n != 0
    case Str(s) => s != []
    case Arr(items) => items != []
    case Obj(fields) => fields != map[]
  }

  /** `d.get(key, default)` on a decoded object. */
  function Get(fields: map<string, Value>, key: string, default: Value): Value {
    if key in fields then fields[key] else default
  }

  /** Follows `path` through nested objects; `None` as soon as a key is missing or a
      non-object is met. A reference reading of the document, independent of the decoder. */
  function Lookup(v: Value, path: seq<string>): Option<Value>
    decreases |path|
  {
    if path == [] then Some(v)
    else match v
      case Obj(fields) => if path[0] in fields then Lookup(fields[path[0]], path[1..]) else None
      case _ => None
  }

  /** A one-key path reads one field of an object. */
  lemma LookupField(v: Value, key: string)
    ensures Lookup(v, [key]) == if v.Obj? && key in v.fields then Some(v.fields[key]) else None
  {
    assert [key][1..] == [];
  }

  /** A two-key path reads a field of the object found under the first key. */
  lemma LookupNested(v: Value, outer: string, key: string)
    ensures Lookup(v, [outer, key]) ==
              if v.Obj? && outer in v.fields then Lookup(v.fields[outer], [key]) else None
  {
    assert [outer, key][1..] == [key];
  }
}

=== FILE: lex.dfy ===
/** The order SQLite's default BINARY collation gives `ORDER BY` on text: byte-wise
    comparison of UTF-8, which is lexicographic comparison of code points. */
module Lex {
  import opened Seqs

  /** Strict lexicographic order on strings; a proper prefix sorts first. */
  predicate Less(a: string, b: string)
    decreases |a|
  {
    if a == [] then b != []
    else b != [] && (a[0] < b[0] || (a[0] == b[0] && Less(a[1..], b[1..])))
  }

  lemma {:induction false} LessIrreflexive(a: string)
    ensures !Less(a, a)
    decreases |a|
  {
    if a != [] {
      LessIrreflexive(a[1..]);
    }
  }

  lemma {:induction false} LessTransitive(a: string, b: string, c: string)
    requires Less(a, b) && Less(b, c)
    ensures Less(a, c)
    decreases |a|
  {
    if a != [] && a[0] == b[0] && b[0] == c[0] {
      LessTransitive(a[1..], b[1..], c[1..]);
    }
  }

  /** Any two strings are equal or ordered one way, and never both ways. */
  lemma {:induction false} LessTotal(a: string, b: string)
    ensures a == b || Less(a, b) || Less(b, a)
    ensures !(Less(a, b) && Less(b, a))
    decreases |a|
  {
    if a != [] && b != [] && a[0] == b[0] {
      LessTotal(a[1..], b[1..]);
      assert a == [a[0]] + a[1..] && b == [b[0]] + b[1..];
    }
  }

  /** Every earlier element is strictly below every later one; in particular no repeats. */
  predicate StrictlySorted(s: seq<string>) {
    forall i, j :: 0 <= i < j < |s| ==> Less(s[i], s[j])
  }

  /** Puts `x` into its place in a sorted sequence, unless it is already there. */
  function Insert(x: string, s: seq<string>): (r: seq<string>)
    requires StrictlySorted(s)
    ensures StrictlySorted(r)
    ensures forall y :: y in r <==> y == x || y in s
  {
    if s == [] then [x]
    else if x == s[0] then s
    else if Less(x, s[0]) then
      assert forall j :: 0 <= j < |s| ==> Less(x, s[j]) by {
        forall j | 0 <= j < |s| ensures Less(x, s[j]) {
          if j > 0 { LessTransitive(x, s[0], s[j]); }
        }
      }
      [x] + s
    else
      var rest := Insert(x, s[1..]);
      LessTotal(x, s[0]);
      assert forall y :: y in rest ==> Less(s[0], y) by {
        forall y | y in rest ensures Less(s[0], y) {
          if y != x {
            var j :| 0 <= j < |s[1..]| && s[1..][j] == y;
            assert s[j + 1] == y;
          }
        }
      }
      [s[0]] + rest
  }

  /** Sorts and drops repeated elements. */
  function Sort(s: seq<string>): (r: seq<string>)
    ensures StrictlySorted(r)
    ensures forall y :: y in r <==> y in s
  {
    if s == [] then [] else Insert(s[0], Sort(s[1..]))
  }

  /** A strictly sorted sequence is determined by its elements. */
  lemma {:induction false} SortedUnique(a: seq<string>, b: seq<string>)
    requires StrictlySorted(a) && StrictlySorted(b)
    requires forall y :: y in a <==> y in b
    ensures a == b
    decreases |a|
  {
    SameMembersBothEmpty(a, b);
    if a != [] && b != [] {
      assert a[0] in b;
      assert b[0] in a;
      if a[0] != b[0] {
        var i :| 0 <= i < |b| && b[i] == a[0];
        var j :| 0 <= j < |a| && a[j] == b[0];
        assert Less(b[0], a[0]) && Less(a[0], b[0]);
        LessTotal(a[0], b[0]);
      }
      forall y ensures y in a[1..] <==> y in b[1..] {
        if y in a[1..] {
          var i :| 0 <= i < |a[1..]| && a[1..][i] == y;
          assert Less(a[0], a[i + 1]);
          LessIrreflexive(y);
          assert y != b[0];
          assert y in b;
        }
        if y in b[1..] {
          var i :| 0 <= i < |b[1..]| && b[1..][i] == y;
          assert Less(b[0], b[i + 1]);
          LessIrreflexive(y);
          assert y != a[0];
          assert y in a;
        }
      }
      SortedUnique(a[1..], b[1..]);
      assert a == [a[0]] + a[1..] && b == [b[0]] + b[1..];
    }
  }

  lemma SameMembersBothEmpty(a: seq<string>, b: seq<string>)
    requires forall y :: y in a <==> y in b
    ensures a == [] <==> b == []
  {
    if a != [] { assert a[0] in b; }
    if b != [] { assert b[0] in a; }
  }

  lemma SortedIsDistinct(s: seq<string>)
    requires StrictlySorted(s)
    ensures Distinct(s)
  {
    forall i, j | 0 <= i < j < |s| ensures s[i] != s[j] {
      LessIrreflexive(s[i]);
    }
  }

  /** An element below everything in a sorted sequence can go in front. */
  lemma SortedCons(x: string, s: seq<string>)
    requires StrictlySorted(s)
    requires forall y :: y in s ==> Less(x, y)
    ensures StrictlySorted([x] + s)
  {
    forall i, j | 0 <= i < j < |[x] + s| ensures Less(([x] + s)[i], ([x] + s)[j]) {
      if i == 0 {
        assert ([x] + s)[j] == s[j - 1];
      }
    }
  }

  /** Leaving elements out of a strictly sorted sequence keeps it strictly sorted. */
  lemma {:induction false} SortedSubseq(a: seq<string>, b: seq<string>)
    requires StrictlySorted(b) && IsSubseq(a, b)
    ensures StrictlySorted(a)
    decreases |b|
  {
    if a != [] {
      if a[0] == b[0] {
        SortedSubseq(a[1..], b[1..]);
        SubseqMembers(a[1..], b[1..]);
        forall y | y in a[1..] ensures Less(a[0], y) {
          var j :| 0 <= j < |b[1..]| && b[1..][j] == y;
          assert b[j + 1] == y;
        }
        SortedCons(a[0], a[1..]);
        assert [a[0]] + a[1..] == a;
      } else {
        SortedSubseq(a, b[1..]);
      }
    }
  }
}

=== FILE: outcome.dfy ===
/** Failure-carrying wrappers shared by the whole model. */
module Outcome {

  /** A value that may be absent (Python's `None`, a missing dictionary key). */
  datatype Option<+T> = None | Some(value: T) {
    /** The carried value, or `default` when absent (Python's `d.get(k, default)`). */
    function GetOr(default: T): T {
      match this
      case Some(v) => v
      case None => default
    }

    /** The carried value as a one-element sequence, or the empty sequence. */
    function ToSeq(): seq<T> {
      match this
      case Some(v) => [v]
      case None => []
    }
  }

  /** The exceptions that can escape one poll cycle. Every one of them aborts the cycle. */
  datatype Error =
    | FetchFailed          // transport failure, 4xx or 5xx status or unparsable body (`raise_for_status`, `r.json()`)
    | MalformedPayload     // AttributeError / TypeError / KeyError while walking the decoded JSON
    | UnsupportedBinding   // sqlite3 refuses to bind a parameter: a list, an object, or an integer outside 64 bits
    | SummaryNotSliceable  // `n['summary'][:120]` on a value that is not a string
    | NotifyFailed         // the chat service rejected the message (`raise_for_status`)

  /** Either a value or the exception that was raised instead. */
  datatype Result<+T> = Success(value: T) | Failure(error: Error)
}

=== FILE: poll.dfy ===
/** One poll cycle (`run_once`) as a pure state transformer. The vulnerability search and the
    chat notification are oracles passed in; the cycle returns the new tables, the messages it
    handed to the notifier, and the exception that ended it early, if any. */
module Poll {
  import opened Outcome
  import opened Json
  import opened Seqs
  import Lex
  import opened Store
  import opened Cve

  /** `cve.search(product, limit=5)`. */
  const PollLimit: nat := 5

  /** `n['summary'][:120]`. */
  const SummaryCap: nat := 120

  /** `cve.search`: given keyword and result limit, the candidate records or the exception
      raised. `Cve.Search` composed with an HTTP oracle is one such function. */
  type Searcher = (string, nat) -> Result<seq<Record>>

  // ---- Keys under which ids are recorded ----

  /** The character of a decimal digit. */
  function Digit(d: nat): (c: char)
    requires d < 10
    ensures '0' <= c <= '9' && c as int - '0' as int == d
  {
    (d + '0' as int) as char
  }

  /** The decimal digits of a natural number, most significant first. */
  function DigitsOf(n: nat): (r: string)
    decreases n
    ensures |r| >= 1
    ensures forall i :: 0 <= i < |r| ==> '0' <= r[i] <= '9'
  {
    if n < 10 then [Digit(n)] else DigitsOf(n / 10) + [Digit(n % 10)]
  }

  /** Different numbers have different digits. */
  lemma {:induction false} DigitsOfInjective(a: nat, b: nat)
    requires DigitsOf(a) == DigitsOf(b)
    ensures a == b
    decreases a
  {
    var da, db := DigitsOf(a), DigitsOf(b);
    if a < 10 && b < 10 {
      assert Digit(a) == da[0] == db[0] == Digit(b);
    } else if a >= 10 && b >= 10 {
      assert Digit(a % 10) == da[|da| - 1] == db[|db| - 1] == Digit(b % 10);
      assert DigitsOf(a / 10) == da[..|da| - 1] == db[..|db| - 1] == DigitsOf(b / 10);
      DigitsOfInjective(a / 10, b / 10);
    }
  }

  /** Decimal rendering of an integer, as SQLite converts one for a TEXT column. */
  function IntText(n: int): string {
    if n < 0 then "-" + DigitsOf(-n) else DigitsOf(n)
  }

  /** The values sqlite3 can bind as an INTEGER parameter: a Python int outside the signed
      64-bit range makes it raise `OverflowError`. */
  predicate InInt64(n: int) {
    -0x8000_0000_0000_0000 <= n < 0x8000_0000_0000_0000
  }

  /** The text under which the `seen` table stores and finds a bound id. The column has TEXT
      affinity, so an integer (and a boolean, bound as 0 or 1) is compared as its decimal text.
      `None` when sqlite3 cannot bind the id: a list, an object, an integer outside 64 bits;
      and for `Null`, which binds as NULL and never matches a row. */
  function IdKey(id: Value): (k: Option<string>)
    ensures k.Some? <==> id.Str? || id.Bool? || (id.Num? && InInt64(id.n))
    ensures id.Str? ==> k == Some(id.s)
    ensures id.Num? && k.Some? ==> |k.value| >= 1 && (k.value[0] == '-' <==> id.n < 0)
  {
    match id
    case Str(s) => Some(s)
    case Num(n) => if InInt64(n) then Some(IntText(n)) else None
    case Bool(b) => Some(if b then "1" else "0")
    case _ => None
  }

  /** The ledger key a candidate record would be checked and recorded under: none for a
      falsy id, which the cycle skips. */
  function KeyOf(r: Record): (k: Option<string>)
    ensures !Truthy(r.id) ==> k.None?
    ensures k.Some? ==> IdKey(r.id) == k && k.value != ""
  {
    if Truthy(r.id) then IdKey(r.id) else None
  }

  /** Two integer ids share a ledger key only when they are equal. */
  lemma IntegerIdsKeyedApart(a: int, b: int)
    requires IdKey(Num(a)).Some? && IdKey(Num(a)) == IdKey(Num(b))
    ensures a == b
  {
    var ta, tb := IntText(a), IntText(b);
    assert a < 0 <==> b < 0;
    if a < 0 {
      assert DigitsOf(-a) == ta[1..] == tb[1..] == DigitsOf(-b);
      DigitsOfInjective(-a, -b);
    } else {
      DigitsOfInjective(a, b);
    }
  }

  /** Whether sqlite3 can bind the value as a parameter. */
  predicate Bindable(v: Value) {
    !v.Arr? && !v.Obj? && (v.Num? ==> InInt64(v.n))
  }

  /** The first `SummaryCap` characters of a summary. */
  function Truncate(s: string): (r: string)
    ensures |r| <= SummaryCap
    ensures r <= s
    ensures |s| <= SummaryCap ==> r == s
    ensures |s| > SummaryCap ==> |r| == SummaryCap
  {
    if |s| <= SummaryCap then s else s[..SummaryCap]
  }

  // ---- One product's candidates ----

  /** A record accepted into a product's batch, with the key it was recorded under. */
  datatype Accepted = Accepted(key: string, rec: Record)

  /** The ledger after scanning one product's candidates, the batch of newly recorded
      records, and the exception that stopped the scan, if any. */
  datatype Scan = Scan(db: Db, batch: seq<Accepted>, failure: Option<Error>)

  /** Every candidate with a usable key, in result order: what a scan could accept. */
  function Pairs(rs: seq<Record>): (r: seq<Accepted>)
    ensures forall a :: a in r ==> a.rec in rs && KeyOf(a.rec) == Some(a.key)
  {
    if rs == [] then []
    else match KeyOf(rs[0])
      case Some(k) => [Accepted(k, rs[0])] + Pairs(rs[1..])
      case None => Pairs(rs[1..])
  }

  function KeysOf(batch: seq<Accepted>): (r: seq<string>)
    ensures |r| == |batch|
    ensures forall i :: 0 <= i < |batch| ==> r[i] == batch[i].key
  {
    seq(|batch|, i requires 0 <= i < |batch| => batch[i].key)
  }

  /** Every recorded entry is still there, unchanged. */
  predicate Grows(before: map<string, Entry>, after: map<string, Entry>) {
    forall k :: k in before ==> k in after && after[k] == before[k]
  }

  /** Every candidate with a truthy id has a usable key, and that key is recorded. */
  predicate AllRecorded(rs: seq<Record>, seen: map<string, Entry>) {
    forall r :: r in rs && Truthy(r.id) ==> KeyOf(r).Some? && KeyOf(r).value in seen
  }

  /** What checking one candidate leaves behind: the ledger, the candidate if it joined the
      batch, and the exception raised, if any. */
  datatype Visit = Visit(db: Db, accepted: Option<Accepted>, failure: Option<Error>)

  /** One iteration of the inner loop of `run_once`: a candidate with a truthy id that
      `is_seen` does not know is recorded with `mark_seen(id, product, published)` and joins
      the batch. Binding an id or stamp sqlite3 cannot take raises; a stamp is bound only
      when the id is new. */
  function VisitRecord(db: Db, product: string, r: Record): (v: Visit)
    ensures v.db.watch == db.watch
    ensures v.accepted.None? ==> v.db == db
    ensures v.accepted.Some? ==>
              && KeyOf(r) == Some(v.accepted.value.key) && v.accepted.value.rec == r
              && v.accepted.value.key !in db.seen
              && v.db.seen == db.seen[v.accepted.value.key := Entry(product, r.published)]
    ensures v.failure.Some? ==> v.accepted.None? && v.db == db && v.failure == Some(UnsupportedBinding)
    ensures v.failure.Some? <==>
              Truthy(r.id) && (IdKey(r.id).None? || (IdKey(r.id).value !in db.seen && !Bindable(r.published)))
    ensures v.failure == None && Truthy(r.id) ==> KeyOf(r).Some? && KeyOf(r).value in v.db.seen
    ensures !Truthy(r.id) ==> v == Visit(db, None, None)
    ensures Recorded(db.seen, v.db.seen, product, v.accepted.ToSeq())
  {
    if !Truthy(r.id) then Visit(db, None, None)
    else match IdKey(r.id)
      case None => Visit(db, None, Some(UnsupportedBinding))
      case Some(k) =>
        if IsSeen(db, k) then Visit(db, None, None)
        else if !Bindable(r.published) then Visit(db, None, Some(UnsupportedBinding))
        else
          assert KeysOf([Accepted(k, r)]) == [k];
          Visit(MarkSeen(db, k, product, r.published), Some(Accepted(k, r)), None)
  }

  /** Going from ledger `before` to `after`, exactly the keys of `batch` were recorded,
      once each, for `product`, and nothing recorded before was touched. */
  predicate Recorded(before: map<string, Entry>, after: map<string, Entry>, product: string, batch: seq<Accepted>) {
    && Grows(before, after)
    && (forall a :: a in batch ==>
          a.key !in before && a.key in after && after[a.key] == Entry(product, a.rec.published))
    && (forall k :: k in after && k !in before ==> k in KeysOf(batch))
    && Distinct(KeysOf(batch))
  }

  /** Every key of the batch is new and recorded. */
  lemma RecordedKeys(before: map<string, Entry>, after: map<string, Entry>, product: string, batch: seq<Accepted>)
    requires Recorded(before, after, product, batch)
    ensures forall k :: k in KeysOf(batch) ==> k !in before && k in after
  {
    forall k | k in KeysOf(batch) ensures k !in before && k in after {
      var i :| 0 <= i < |batch| && KeysOf(batch)[i] == k;
      assert batch[i] in batch;
    }
  }

  /** Two recording stretches in a row make one, with the batches joined. */
  lemma RecordedChain(s0: map<string, Entry>, s1: map<string, Entry>, s2: map<string, Entry>,
                      product: string, b1: seq<Accepted>, b2: seq<Accepted>)
    requires Recorded(s0, s1, product, b1) && Recorded(s1, s2, product, b2)
    ensures Recorded(s0, s2, product, b1 + b2)
  {
    assert KeysOf(b1 + b2) == KeysOf(b1) + KeysOf(b2);
    RecordedKeys(s0, s1, product, b1);
    RecordedKeys(s1, s2, product, b2);
    DistinctConcat(KeysOf(b1), KeysOf(b2));
    forall a | a in b1 + b2
      ensures a.key !in s0 && a.key in s2 && s2[a.key] == Entry(product, a.rec.published)
    {
      if a in b1 {
        assert a.key in s1;
      } else {
        assert a in b2;
      }
    }
  }

  /** The inner loop of `run_once` over one product's candidates, in order; an exception
      ends it, leaving the ids recorded so far. */
  function ScanRecords(db: Db, product: string, rs: seq<Record>): (s: Scan)
    decreases |rs|
    ensures s.db.watch == db.watch
    ensures Recorded(db.seen, s.db.seen, product, s.batch)
    ensures s.failure == None ==> AllRecorded(rs, s.db.seen)
  {
    if rs == [] then Scan(db, [], None)
    else
      var v := VisitRecord(db, product, rs[0]);
      if v.failure.Some? then Scan(v.db, [], v.failure)
      else
        var rest := ScanRecords(v.db, product, rs[1..]);
        RecordedChain(db.seen, v.db.seen, rest.db.seen, product, v.accepted.ToSeq(), rest.batch);
        assert forall x :: x in rs ==> x == rs[0] || x in rs[1..];
        Scan(rest.db, v.accepted.ToSeq() + rest.batch, rest.failure)
  }

  /** The batch keeps the order of the search results. */
  lemma {:induction false} ScanKeepsOrder(db: Db, product: string, rs: seq<Record>)
    ensures IsSubseq(ScanRecords(db, product, rs).batch, Pairs(rs))
    decreases |rs|
  {
    if rs != [] {
      var v := VisitRecord(db, product, rs[0]);
      var s := ScanRecords(db, product, rs);
      if v.failure.None? {
        var rest := ScanRecords(v.db, product, rs[1..]);
        ScanKeepsOrder(v.db, product, rs[1..]);
        assert s.batch == v.accepted.ToSeq() + rest.batch;
        match KeyOf(rs[0]) {
          case None =>
            assert Pairs(rs) == Pairs(rs[1..]);
            assert v.accepted.None?;
            assert s.batch == rest.batch;
          case Some(k) =>
            assert Pairs(rs) == [Accepted(k, rs[0])] + Pairs(rs[1..]);
            if v.accepted.Some? {
              assert v.accepted.value == Accepted(k, rs[0]);
              assert s.batch == [Accepted(k, rs[0])] + rest.batch;
              SubseqBoth(Accepted(k, rs[0]), rest.batch, Pairs(rs[1..]));
            } else {
              assert s.batch == rest.batch;
              SubseqCons(rest.batch, Accepted(k, rs[0]), Pairs(rs[1..]));
            }
        }
      } else {
        assert s.batch == [];
      }
    }
  }

  /** Marks are never rolled back: whatever later candidates do, including raising, every
      id recorded by a stretch of the loop that ran through stays recorded as it was. */
  lemma {:induction false} ScanKeepsEarlierMarks(db: Db, product: string, rs: seq<Record>, more: seq<Record>)
    requires ScanRecords(db, product, rs).failure == None
    ensures Grows(ScanRecords(db, product, rs).db.seen, ScanRecords(db, product, rs + more).db.seen)
    decreases |rs|
  {
    if rs == [] {
      assert rs + more == more;
    } else {
      var v := VisitRecord(db, product, rs[0]);
      assert (rs + more)[0] == rs[0];
      assert (rs + more)[1..] == rs[1..] + more;
      ScanKeepsEarlierMarks(v.db, product, rs[1..], more);
    }
  }

  /** An exception ends the candidate loop at the candidate that raised: when the
      candidates before position `i` ran through and `rs[i]` raises, the scan stops with
      that exception, and later candidates are neither recorded nor batched. */
  lemma {:induction false} ScanStopsAtFailure(db: Db, product: string, rs: seq<Record>, i: nat)
    requires i < |rs|
    requires ScanRecords(db, product, rs[..i]).failure == None
    requires VisitRecord(ScanRecords(db, product, rs[..i]).db, product, rs[i]).failure.Some?
    ensures var pre := ScanRecords(db, product, rs[..i]);
            var v := VisitRecord(pre.db, product, rs[i]);
            ScanRecords(db, product, rs) == Scan(pre.db, pre.batch, v.failure)
    decreases i
  {
    if i == 0 {
      assert rs[..0] == [];
    } else {
      var v0 := VisitRecord(db, product, rs[0]);
      assert rs[..i][0] == rs[0] && rs[..i][1..] == rs[1..][..i - 1] && rs[1..][i - 1] == rs[i];
      assert v0.failure == None;
      ScanStopsAtFailure(v0.db, product, rs[1..], i - 1);
    }
  }

  /** A candidate the inner loop gets through without raising, whatever the ledger holds: a
      falsy id, or an id and stamp sqlite3 can bind and a summary that can be sliced. */
  predicate Usable(r: Record) {
    Truthy(r.id) ==> IdKey(r.id).Some? && Bindable(r.published) && r.summary.Str?
  }

  /** The candidate loop raises only on an unusable candidate. */
  lemma {:induction false} ScanClean(db: Db, product: string, rs: seq<Record>)
    requires forall r :: r in rs ==> Usable(r)
    ensures ScanRecords(db, product, rs).failure == None
    decreases |rs|
  {
    if rs != [] {
      var v := VisitRecord(db, product, rs[0]);
      assert rs[0] in rs;
      assert v.failure == None;
      assert forall r :: r in rs[1..] ==> r in rs;
      ScanClean(v.db, product, rs[1..]);
    }
  }

  // ---- Message formatting ----

  /** One line of a notification: the id, its publication stamp and the truncated summary,
      with the ledger key the id was recorded under. */
  datatype Line = Line(key: string, id: Value, published: Value, summary: string)

  /** `New CVEs for <product>` followed by one line per newly recorded CVE. */
  datatype Message = Message(product: string, lines: seq<Line>)

  /** One line of the message; raises when the summary is not a string. */
  function LineOf(a: Accepted): (r: Result<Line>)
    ensures r.Success? <==> a.rec.summary.Str?
    ensures r.Failure? ==> r.error == SummaryNotSliceable
    ensures r.Success? ==> r.value.key == a.key && r.value.id == a.rec.id && r.value.published == a.rec.published
    ensures r.Success? ==> r.value.summary <= a.rec.summary.s && |r.value.summary| <= SummaryCap
    ensures r.Success? ==> |r.value.summary| == if |a.rec.summary.s| <= SummaryCap then |a.rec.summary.s| else SummaryCap
  {
    match a.rec.summary
    case Str(s) => Success(Line(a.key, a.rec.id, a.rec.published, Truncate(s)))
    case _ => Failure(SummaryNotSliceable)
  }

  /** The list comprehension building the lines, in batch order. */
  function FormatLines(batch: seq<Accepted>): (r: Result<seq<Line>>)
    ensures r.Success? <==> forall i :: 0 <= i < |batch| ==> LineOf(batch[i]).Success?
    ensures r.Success? ==> |r.value| == |batch|
    ensures r.Success? ==> forall i :: 0 <= i < |batch| ==> LineOf(batch[i]) == Success(r.value[i])
  {
    if batch == [] then Success([])
    else
      match LineOf(batch[0])
      case Failure(e) => Failure(e)
      case Success(l) =>
        match FormatLines(batch[1..])
        case Failure(e) =>
          assert forall i :: 0 <= i < |batch[1..]| ==> batch[1..][i] == batch[i + 1];
          Failure(e)
        case Success(rest) =>
          assert forall i :: 1 <= i < |batch| ==> batch[i] == batch[1..][i - 1];
          Success([l] + rest)
  }

  /** Every line a result list could contribute, in result order. */
  function Rendered(ps: seq<Accepted>): seq<Line> {
    if ps == [] then []
    else match LineOf(ps[0])
      case Success(l) => [l] + Rendered(ps[1..])
      case Failure(_) => Rendered(ps[1..])
  }

  /** Every line a product's search results could contribute to its message. */
  function Candidates(rs: seq<Record>): seq<Line> {
    Rendered(Pairs(rs))
  }

  /** Formatting a subsequence of the candidates gives a subsequence of the candidate lines. */
  lemma {:induction false} FormatKeepsOrder(batch: seq<Accepted>, ps: seq<Accepted>)
    requires IsSubseq(batch, ps)
    requires FormatLines(batch).Success?
    ensures IsSubseq(FormatLines(batch).value, Rendered(ps))
    decreases |ps|
  {
    if batch != [] {
      var lines := FormatLines(batch).value;
      assert FormatLines(batch[1..]).Success?;
      if batch[0] == ps[0] {
        FormatKeepsOrder(batch[1..], ps[1..]);
        assert lines == [lines[0]] + FormatLines(batch[1..]).value;
      } else {
        FormatKeepsOrder(batch, ps[1..]);
        if LineOf(ps[0]).Success? {
          SubseqCons(lines, LineOf(ps[0]).value, Rendered(ps[1..]));
        }
      }
    }
  }

  // ---- The cycle ----

  /** The notifier (`webex.notify`): true when the message was delivered or when the room or
      the token is not configured (a no-op), false when the request raised. */
  type Deliver = Message -> bool

  datatype Cycle = Cycle(db: Db, sent: seq<Message>, failure: Option<Error>)

  /** `m` is a message the cycle may send for its product: non-empty, and its lines are some
      of that product's candidate lines, in result order. */
  predicate Reports(search: Searcher, m: Message) {
    && m.lines != []
    && search(m.product, PollLimit).Success?
    && IsSubseq(m.lines, Candidates(search(m.product, PollLimit).value))
  }

  function ProductsOf(sent: seq<Message>): (r: seq<string>)
    ensures |r| == |sent|
    ensures forall i :: 0 <= i < |sent| ==> r[i] == sent[i].product
  {
    seq(|sent|, i requires 0 <= i < |sent| => sent[i].product)
  }

  /** The ledger keys of every line sent, message after message. */
  function SentKeys(sent: seq<Message>): seq<string> {
    if sent == [] then []
    else seq(|sent[0].lines|, i requires 0 <= i < |sent[0].lines| => sent[0].lines[i].key) + SentKeys(sent[1..])
  }

  /** What handling one product leaves behind: the ledger, the message handed to the
      notifier (if the batch was non-empty), and the exception raised, if any. */
  datatype Step = Step(db: Db, msg: Option<Message>, failure: Option<Error>)

  /** One iteration of the outer loop of `run_once`: search, scan, and, for a non-empty
      batch, format the lines and notify once. A failed notification leaves the ids it
      carried recorded. */
  function PollProduct(db: Db, product: string, search: Searcher, deliver: Deliver): (st: Step)
    ensures st.db.watch == db.watch
    ensures Grows(db.seen, st.db.seen)
    ensures st.msg.Some? ==> st.msg.value.product == product
    ensures Distinct(SentKeys(st.msg.ToSeq()))
    ensures forall k :: k in SentKeys(st.msg.ToSeq()) ==> k !in db.seen && k in st.db.seen
    ensures st.failure == None ==> forall k :: k in st.db.seen && k !in db.seen ==> k in SentKeys(st.msg.ToSeq())
    ensures st.failure == None ==>
              search(product, PollLimit).Success? && AllRecorded(search(product, PollLimit).value, st.db.seen)
    ensures search(product, PollLimit).Failure? ==> st == Step(db, None, Some(search(product, PollLimit).error))
    ensures st.msg.Some? ==> (st.failure.Some? <==> !deliver(st.msg.value))
    ensures search(product, PollLimit).Success? ==> st.db == ScanRecords(db, product, search(product, PollLimit).value).db
  {
    match search(product, PollLimit)
    case Failure(e) => Step(db, None, Some(e))
    case Success(rs) =>
      var s := ScanRecords(db, product, rs);
      if s.failure.Some? then Step(s.db, None, s.failure)
      else if s.batch == [] then Step(s.db, None, None)
      else match FormatLines(s.batch)
        case Failure(e) => Step(s.db, None, Some(e))
        case Success(lines) =>
          var m := Message(product, lines);
          BatchMessage(db, product, rs);
          Step(s.db, Some(m), if deliver(m) then None else Some(NotifyFailed))
  }

  /** The message built from a clean, non-empty batch reports exactly the batch's keys. */
  lemma BatchMessage(db: Db, product: string, rs: seq<Record>)
    requires ScanRecords(db, product, rs).failure == None
    requires ScanRecords(db, product, rs).batch != []
    requires FormatLines(ScanRecords(db, product, rs).batch).Success?
    ensures var s := ScanRecords(db, product, rs);
            var lines := FormatLines(s.batch).value;
            && lines != []
            && IsSubseq(lines, Candidates(rs))
            && SentKeys([Message(product, lines)]) == KeysOf(s.batch)
            && (forall k :: k in KeysOf(s.batch) ==> k !in db.seen && k in s.db.seen)
  {
    var s := ScanRecords(db, product, rs);
    var lines := FormatLines(s.batch).value;
    ScanKeepsOrder(db, product, rs);
    FormatKeepsOrder(s.batch, Pairs(rs));
    assert SentKeys([Message(product, lines)]) == KeysOf(s.batch);
    RecordedKeys(db.seen, s.db.seen, product, s.batch);
  }

  /** `mark_seen` runs before `notify`: what the notifier answers changes neither the ledger
      nor the message handed to it, only whether the product ends in an exception. */
  lemma NotifierIrrelevant(db: Db, product: string, search: Searcher, d1: Deliver, d2: Deliver)
    ensures PollProduct(db, product, search, d1).db == PollProduct(db, product, search, d2).db
    ensures PollProduct(db, product, search, d1).msg == PollProduct(db, product, search, d2).msg
  {
  }

  /** The outer loop of `run_once` over the given products, in order. Any exception
      (search, binding, formatting, notification) ends the cycle at once. */
  function RunProducts(db: Db, products: seq<string>, search: Searcher, deliver: Deliver): (c: Cycle)
    decreases |products|
    ensures c.db.watch == db.watch
    ensures Grows(db.seen, c.db.seen)
    ensures forall m :: m in c.sent ==> m.product in products
    ensures Distinct(SentKeys(c.sent))
    ensures forall k :: k in SentKeys(c.sent) ==> k !in db.seen && k in c.db.seen
  {
    if products == [] then Cycle(db, [], None)
    else
      var st := PollProduct(db, products[0], search, deliver);
      if st.failure.Some? then Cycle(st.db, st.msg.ToSeq(), st.failure)
      else
        var rest := RunProducts(st.db, products[1..], search, deliver);
        var sent := st.msg.ToSeq() + rest.sent;
        SentKeysConcat(st.msg.ToSeq(), rest.sent);
        DistinctConcat(SentKeys(st.msg.ToSeq()), SentKeys(rest.sent));
        assert forall p :: p in products[1..] ==> p in products;
        Cycle(rest.db, sent, rest.failure)
  }

  /** A message handed to the notifier is non-empty and lists some of its product's
      candidate lines, in result order. */
  lemma PollProductReports(db: Db, product: string, search: Searcher, deliver: Deliver)
    ensures var st := PollProduct(db, product, search, deliver);
            st.msg.Some? ==> Reports(search, st.msg.value)
  {
    if search(product, PollLimit).Success? {
      var rs := search(product, PollLimit).value;
      var s := ScanRecords(db, product, rs);
      if s.failure.None? && s.batch != [] && FormatLines(s.batch).Success? {
        BatchMessage(db, product, rs);
      }
    }
  }

  /** Every message of a cycle reports on its product's own search results. */
  lemma {:induction false} RunProductsReports(db: Db, products: seq<string>, search: Searcher, deliver: Deliver, m: Message)
    requires m in RunProducts(db, products, search, deliver).sent
    ensures Reports(search, m)
    decreases |products|
  {
    var st := PollProduct(db, products[0], search, deliver);
    PollProductReports(db, products[0], search, deliver);
    if st.failure.None? && m !in st.msg.ToSeq() {
      RunProductsReports(st.db, products[1..], search, deliver, m);
    }
  }

  lemma {:induction false} SentKeysConcat(a: seq<Message>, b: seq<Message>)
    ensures SentKeys(a + b) == SentKeys(a) + SentKeys(b)
    decreases |a|
  {
    if a != [] {
      SentKeysConcat(a[1..], b);
      assert (a + b)[1..] == a[1..] + b;
    } else {
      assert a + b == b;
    }
  }

  /** `run_once`: the cycle over `list_products()`. */
  function RunOnce(db: Db, search: Searcher, deliver: Deliver): (c: Cycle)
    ensures c.db.watch == db.watch
    ensures Grows(db.seen, c.db.seen)
    ensures forall m :: m in c.sent ==> m.product in db.watch
    ensures Distinct(SentKeys(c.sent))
    ensures forall k :: k in SentKeys(c.sent) ==> k !in db.seen && k in c.db.seen
  {
    RunProducts(db, ListProducts(db), search, deliver)
  }

  // ---- Properties of a cycle ----

  /** Messages go out in the order of the product list, at most one per entry. */
  lemma {:induction false} RunProductsFollowsList(db: Db, products: seq<string>, search: Searcher, deliver: Deliver)
    ensures IsSubseq(ProductsOf(RunProducts(db, products, search, deliver).sent), products)
    decreases |products|
  {
    if products != [] {
      var c := RunProducts(db, products, search, deliver);
      var st := PollProduct(db, products[0], search, deliver);
      assert [products[0]] + products[1..] == products;
      if st.failure.None? {
        var rest := RunProducts(st.db, products[1..], search, deliver);
        RunProductsFollowsList(st.db, products[1..], search, deliver);
        assert c.sent == st.msg.ToSeq() + rest.sent;
        FollowsStep(products[0], products[1..], st.msg.ToSeq(), rest.sent);
      } else {
        assert c.sent == st.msg.ToSeq() + [];
        FollowsStep(products[0], products[1..], st.msg.ToSeq(), []);
      }
    }
  }

  /** At most one message for `p` in front of messages that follow `ps` follows `[p] + ps`. */
  lemma FollowsStep(p: string, ps: seq<string>, head: seq<Message>, tail: seq<Message>)
    requires |head| <= 1 && forall m :: m in head ==> m.product == p
    requires IsSubseq(ProductsOf(tail), ps)
    ensures IsSubseq(ProductsOf(head + tail), [p] + ps)
  {
    if head == [] {
      assert head + tail == tail;
      SubseqCons(ProductsOf(tail), p, ps);
    } else {
      assert head[0] in head;
      assert ProductsOf(head + tail) == [p] + ProductsOf(tail);
      SubseqBoth(p, ProductsOf(tail), ps);
    }
  }

  /** With a strictly sorted product list, messages go out in that order, one per product
      at most. */
  lemma RunProductsOrdered(db: Db, products: seq<string>, search: Searcher, deliver: Deliver)
    requires Lex.StrictlySorted(products)
    ensures Lex.StrictlySorted(ProductsOf(RunProducts(db, products, search, deliver).sent))
  {
    RunProductsFollowsList(db, products, search, deliver);
    Lex.SortedSubseq(ProductsOf(RunProducts(db, products, search, deliver).sent), products);
  }

  /** A cycle that ran to the end searched every product successfully and recorded every
      truthy id it was given. */
  lemma {:induction false} RunProductsComplete(db: Db, products: seq<string>, search: Searcher, deliver: Deliver, p: string)
    requires RunProducts(db, products, search, deliver).failure == None
    requires p in products
    ensures search(p, PollLimit).Success?
    ensures AllRecorded(search(p, PollLimit).value, RunProducts(db, products, search, deliver).db.seen)
    decreases |products|
  {
    var st := PollProduct(db, products[0], search, deliver);
    var rest := RunProducts(st.db, products[1..], search, deliver);
    if p != products[0] {
      assert p in products[1..];
      RunProductsComplete(st.db, products[1..], search, deliver, p);
    }
  }

  /** A cycle that ran to the end notified every id it recorded. */
  lemma {:induction false} RunProductsNotifiesAllNew(db: Db, products: seq<string>, search: Searcher, deliver: Deliver, k: string)
    requires RunProducts(db, products, search, deliver).failure == None
    requires k in RunProducts(db, products, search, deliver).db.seen && k !in db.seen
    ensures k in SentKeys(RunProducts(db, products, search, deliver).sent)
    decreases |products|
  {
    var st := PollProduct(db, products[0], search, deliver);
    var rest := RunProducts(st.db, products[1..], search, deliver);
    SentKeysConcat(st.msg.ToSeq(), rest.sent);
    if k !in st.db.seen {
      RunProductsNotifiesAllNew(st.db, products[1..], search, deliver, k);
    }
  }

  /** `search` answers for `p`, and with usable candidates only. */
  predicate CleanSearch(search: Searcher, p: string) {
    && search(p, PollLimit).Success?
    && forall r :: r in search(p, PollLimit).value ==> Usable(r)
  }

  /** A product whose search succeeds with usable candidates, under a notifier that never
      fails, is handled without an exception. */
  lemma PollProductClean(db: Db, product: string, search: Searcher, deliver: Deliver)
    requires CleanSearch(search, product)
    requires forall m :: deliver(m)
    ensures PollProduct(db, product, search, deliver).failure == None
  {
    var rs := search(product, PollLimit).value;
    ScanClean(db, product, rs);
    var s := ScanRecords(db, product, rs);
    ScanKeepsOrder(db, product, rs);
    forall i | 0 <= i < |s.batch|
      ensures LineOf(s.batch[i]).Success?
    {
      SubseqMembers(s.batch, Pairs(rs));
      assert s.batch[i] in s.batch;
    }
  }

  /** A cycle fails only through a failing search, an unusable candidate or a refused
      notification: with none of these it runs to the end. */
  lemma {:induction false} RunProductsClean(db: Db, products: seq<string>, search: Searcher, deliver: Deliver)
    requires forall p :: p in products ==> CleanSearch(search, p)
    requires forall m :: deliver(m)
    ensures RunProducts(db, products, search, deliver).failure == None
    decreases |products|
  {
    if products != [] {
      PollProductClean(db, products[0], search, deliver);
      var st := PollProduct(db, products[0], search, deliver);
      assert forall p :: p in products[1..] ==> p in products;
      RunProductsClean(st.db, products[1..], search, deliver);
    }
  }

  /** `run_once` completes when every watched product's search succeeds with usable
      candidates and every notification goes through. */
  lemma RunOnceClean(db: Db, search: Searcher, deliver: Deliver)
    requires forall p :: p in db.watch ==> CleanSearch(search, p)
    requires forall m :: deliver(m)
    ensures RunOnce(db, search, deliver).failure == None
  {
    RunProductsClean(db, ListProducts(db), search, deliver);
  }

  /** There is no per-product isolation: once the search for `products[i]` fails, the cycle
      stops, and only products before it can have been notified. */
  lemma {:induction false} SearchFailureEndsCycle(db: Db, products: seq<string>, search: Searcher, deliver: Deliver, i: nat)
    requires i < |products|
    requires search(products[i], PollLimit).Failure?
    ensures RunProducts(db, products, search, deliver).failure.Some?
    ensures forall m :: m in RunProducts(db, products, search, deliver).sent ==> m.product in products[..i]
    decreases i
  {
    assert i > 0 ==> search(products[1..][i - 1], PollLimit).Failure?;
    var c := RunProducts(db, products, search, deliver);
    var st := PollProduct(db, products[0], search, deliver);
    if i == 0 {
      assert search(products[0], PollLimit).Failure?;
      assert st == Step(db, None, st.failure);
      assert c == Cycle(st.db, [], st.failure);
    } else if st.failure.None? {
      var rest := RunProducts(st.db, products[1..], search, deliver);
      SearchFailureEndsCycle(st.db, products[1..], search, deliver, i - 1);
      assert c == Cycle(rest.db, st.msg.ToSeq() + rest.sent, rest.failure);
      PrefixStep(products, i, st.msg.ToSeq(), rest.sent);
    } else {
      assert c == Cycle(st.db, st.msg.ToSeq(), st.failure);
      assert c.sent == st.msg.ToSeq() + [];
      PrefixStep(products, i, st.msg.ToSeq(), []);
    }
  }

  /** Any exception ends the cycle: when the products before position `i` ran through and
      handling `products[i]` raises (search, binding, formatting or notification), the cycle
      stops there with that exception, its tables, and the messages sent so far, the refused
      one included. */
  lemma {:induction false} FailureEndsCycle(db: Db, products: seq<string>, search: Searcher, deliver: Deliver, i: nat)
    requires i < |products|
    requires RunProducts(db, products[..i], search, deliver).failure == None
    requires PollProduct(RunProducts(db, products[..i], search, deliver).db, products[i], search, deliver).failure.Some?
    ensures var pre := RunProducts(db, products[..i], search, deliver);
            var st := PollProduct(pre.db, products[i], search, deliver);
            RunProducts(db, products, search, deliver) == Cycle(st.db, pre.sent + st.msg.ToSeq(), st.failure)
    decreases i
  {
    if i == 0 {
      FailureAtHead(db, products, search, deliver);
    } else {
      PrefixParts(products, i);
      var pre := RunProducts(db, products[..i], search, deliver);
      var st0 := PollProduct(db, products[0], search, deliver);
      var mid := RunProducts(st0.db, products[1..][..i - 1], search, deliver);
      RunProductsStep(db, products[..i], search, deliver);
      assert st0.failure == None;
      assert pre == Cycle(mid.db, st0.msg.ToSeq() + mid.sent, mid.failure);
      var st := PollProduct(mid.db, products[i], search, deliver);
      FailureEndsCycle(st0.db, products[1..], search, deliver, i - 1);
      var rest := RunProducts(st0.db, products[1..], search, deliver);
      assert rest == Cycle(st.db, mid.sent + st.msg.ToSeq(), st.failure);
      RunProductsStep(db, products, search, deliver);
      assert RunProducts(db, products, search, deliver) == Cycle(rest.db, st0.msg.ToSeq() + rest.sent, rest.failure);
      AppendAssoc(st0.msg.ToSeq(), mid.sent, st.msg.ToSeq());
    }
  }

  lemma AppendAssoc(a: seq<Message>, b: seq<Message>, c: seq<Message>)
    ensures a + (b + c) == (a + b) + c
  {
  }

  /** The case of the first product raising. */
  lemma FailureAtHead(db: Db, products: seq<string>, search: Searcher, deliver: Deliver)
    requires products != []
    requires PollProduct(db, products[0], search, deliver).failure.Some?
    ensures var st := PollProduct(db, products[0], search, deliver);
            && RunProducts(db, products[..0], search, deliver) == Cycle(db, [], None)
            && RunProducts(db, products, search, deliver) == Cycle(st.db, [] + st.msg.ToSeq(), st.failure)
  {
    assert products[..0] == [];
    var st := PollProduct(db, products[0], search, deliver);
    assert [] + st.msg.ToSeq() == st.msg.ToSeq();
  }

  /** One turn of the outer loop: the first product's step, then the rest of the list unless
      that step raised. */
  lemma RunProductsStep(db: Db, products: seq<string>, search: Searcher, deliver: Deliver)
    requires products != []
    ensures var st := PollProduct(db, products[0], search, deliver);
            var rest := RunProducts(st.db, products[1..], search, deliver);
            RunProducts(db, products, search, deliver)
              == if st.failure.Some? then Cycle(st.db, st.msg.ToSeq(), st.failure)
                 else Cycle(rest.db, st.msg.ToSeq() + rest.sent, rest.failure)
  {
  }

  /** How a proper prefix of a product list splits into its head and a prefix of its tail. */
  lemma PrefixParts(products: seq<string>, i: nat)
    requires 0 < i < |products|
    ensures products[..i] != [] && products[..i][0] == products[0]
    ensures products[..i][1..] == products[1..][..i - 1]
    ensures products[1..][i - 1] == products[i]
  {
  }

  /** Messages for the first product, then messages for products before position `i` of the
      rest, are all for products before position `i`. */
  lemma PrefixStep(products: seq<string>, i: nat, head: seq<Message>, tail: seq<Message>)
    requires 0 < i <= |products|
    requires forall m :: m in head ==> m.product == products[0]
    requires forall m :: m in tail ==> m.product in products[1..][..i - 1]
    ensures forall m :: m in head + tail ==> m.product in products[..i]
  {
    forall m | m in head + tail ensures m.product in products[..i] {
      if m in head {
        assert products[..i][0] == products[0];
      } else {
        var t :| 0 <= t < i - 1 && products[1..][..i - 1][t] == m.product;
        assert products[..i][t + 1] == m.product;
      }
    }
  }

  /** A scan over candidates whose ids are all recorded already changes nothing. */
  lemma {:induction false} ScanQuiet(db: Db, product: string, rs: seq<Record>)
    requires AllRecorded(rs, db.seen)
    ensures ScanRecords(db, product, rs) == Scan(db, [], None)
    decreases |rs|
  {
    if rs != [] {
      assert forall x :: x in rs[1..] ==> x in rs;
      ScanQuiet(db, product, rs[1..]);
    }
  }

  /** A cycle over products whose candidates are all recorded already sends nothing and
      changes nothing. */
  lemma {:induction false} RunProductsQuiet(db: Db, products: seq<string>, search: Searcher, deliver: Deliver)
    requires forall p :: p in products ==>
               search(p, PollLimit).Success? && AllRecorded(search(p, PollLimit).value, db.seen)
    ensures RunProducts(db, products, search, deliver) == Cycle(db, [], None)
    decreases |products|
  {
    if products != [] {
      ScanQuiet(db, products[0], search(products[0], PollLimit).value);
      assert PollProduct(db, products[0], search, deliver) == Step(db, None, None);
      assert forall p :: p in products[1..] ==> p in products;
      RunProductsQuiet(db, products[1..], search, deliver);
    }
  }

  /** Idempotence: after a cycle that ran to the end, a second cycle over the same search
      results sends nothing and leaves the tables as they are, whatever the notifier does. */
  lemma RunOnceIdempotent(db: Db, search: Searcher, deliver: Deliver, deliver2: Deliver)
    requires RunOnce(db, search, deliver).failure == None
    ensures var c := RunOnce(db, search, deliver);
            RunOnce(c.db, search, deliver2) == Cycle(c.db, [], None)
  {
    var c := RunOnce(db, search, deliver);
    var products := ListProducts(db);
    forall p | p in products
      ensures search(p, PollLimit).Success? && AllRecorded(search(p, PollLimit).value, c.db.seen)
    {
      RunProductsComplete(db, products, search, deliver, p);
    }
    assert ListProducts(c.db) == products;
    RunProductsQuiet(c.db, products, search, deliver2);
  }

  /** An id notified in one cycle is never notified in the next one, whatever the search
      returns and even if the notification failed. */
  lemma NeverRenotified(db: Db, search1: Searcher, deliver1: Deliver, search2: Searcher, deliver2: Deliver)
    ensures var c1 := RunOnce(db, search1, deliver1);
            var c2 := RunOnce(c1.db, search2, deliver2);
            forall k :: k in SentKeys(c1.sent) ==> k !in SentKeys(c2.sent)
  {
  }

  // ---- First writer wins ----

  /** Position of the first candidate recorded under key `k`, or `|rs|` when none is. */
  function FirstKeyIndex(rs: seq<Record>, k: string): (i: nat)
    ensures i <= |rs|
    ensures i < |rs| ==> KeyOf(rs[i]) == Some(k)
    ensures forall j :: 0 <= j < i ==> KeyOf(rs[j]) != Some(k)
    decreases |rs|
  {
    if rs == [] then 0
    else if KeyOf(rs[0]) == Some(k) then 0
    else
      var i := FirstKeyIndex(rs[1..], k);
      assert forall j :: 1 <= j <= i ==> rs[j] == rs[1..][j - 1];
      i + 1
  }

  /** A ledger that recorded every truthy id of `rs` holds every key `rs` carries. */
  lemma RecordedIncludesFirst(rs: seq<Record>, seen: map<string, Entry>, k: string)
    requires AllRecorded(rs, seen)
    ensures FirstKeyIndex(rs, k) < |rs| ==> k in seen
  {
    if FirstKeyIndex(rs, k) < |rs| {
      assert rs[FirstKeyIndex(rs, k)] in rs;
    }
  }

  /** A key a scan records anew comes from the first candidate carrying it. */
  lemma {:induction false} ScanFirstWriter(db: Db, product: string, rs: seq<Record>, k: string)
    requires k !in db.seen && k in ScanRecords(db, product, rs).db.seen
    ensures FirstKeyIndex(rs, k) < |rs|
    ensures ScanRecords(db, product, rs).db.seen[k] == Entry(product, rs[FirstKeyIndex(rs, k)].published)
    decreases |rs|
  {
    var v := VisitRecord(db, product, rs[0]);
    if v.failure.None? {
      var rest := ScanRecords(v.db, product, rs[1..]);
      if k !in v.db.seen {
        ScanFirstWriter(v.db, product, rs[1..], k);
        assert forall j :: 1 <= j < |rs| ==> rs[j] == rs[1..][j - 1];
      } else {
        assert FirstKeyIndex(rs, k) == 0;
      }
    }
  }


  /** Handling a product records a key anew only when its results surface it, and then with
      the first such candidate's stamp; a product that finishes without recording `k` did
      not surface it. */
  lemma PollProductFirstWriter(db: Db, product: string, search: Searcher, deliver: Deliver, k: string)
    requires k !in db.seen
    ensures var st := PollProduct(db, product, search, deliver);
            k in st.db.seen ==>
              && search(product, PollLimit).Success?
              && var rs := search(product, PollLimit).value;
                 FirstKeyIndex(rs, k) < |rs| && st.db.seen[k] == Entry(product, rs[FirstKeyIndex(rs, k)].published)
    ensures var st := PollProduct(db, product, search, deliver);
            k !in st.db.seen && st.failure == None ==>
              FirstKeyIndex(search(product, PollLimit).value, k) == |search(product, PollLimit).value|
  {
    var st := PollProduct(db, product, search, deliver);
    if search(product, PollLimit).Success? {
      var rs := search(product, PollLimit).value;
      if k in st.db.seen {
        ScanFirstWriter(db, product, rs, k);
      } else if st.failure == None {
        RecordedIncludesFirst(rs, st.db.seen, k);
      }
    }
  }

  /** The search for `p` succeeded and surfaced `k`. */
  predicate SurfacedBy(search: Searcher, p: string, k: string) {
    search(p, PollLimit).Success? && FirstKeyIndex(search(p, PollLimit).value, k) < |search(p, PollLimit).value|
  }

  /** Position of the first product whose search surfaced `k`, or `|products|`. */
  function FirstProductIndex(search: Searcher, products: seq<string>, k: string): (i: nat)
    ensures i <= |products|
    ensures i < |products| ==> SurfacedBy(search, products[i], k)
    ensures forall j :: 0 <= j < i ==> !SurfacedBy(search, products[j], k)
    decreases |products|
  {
    if products == [] then 0
    else if SurfacedBy(search, products[0], k) then 0
    else
      var i := FirstProductIndex(search, products[1..], k);
      assert forall j :: 1 <= j <= i ==> products[j] == products[1..][j - 1];
      i + 1
  }

  /** Successful searches for the first product and the first `i` of the rest are the
      first `i + 1` successful searches of the whole list. */
  lemma ShiftedSearches(search: Searcher, products: seq<string>, i: nat)
    requires i + 1 < |products|
    requires search(products[0], PollLimit).Success?
    requires forall j :: 0 <= j < i ==> search(products[1..][j], PollLimit).Success?
    ensures products[i + 1] == products[1..][i]
    ensures forall j :: 0 <= j < i + 1 ==> search(products[j], PollLimit).Success?
  {
    forall j | 0 < j < i + 1 ensures search(products[j], PollLimit).Success? {
      assert products[j] == products[1..][j - 1];
    }
  }

  /** An id recorded anew in a cycle belongs to the first product, in list order, whose
      results surfaced it, with the stamp of that product's first candidate carrying it;
      every search before that product succeeded. */
  lemma {:induction false} FirstProductWins(db: Db, products: seq<string>, search: Searcher, deliver: Deliver, k: string)
    requires k !in db.seen && k in RunProducts(db, products, search, deliver).db.seen
    ensures FirstProductIndex(search, products, k) < |products|
    ensures var i := FirstProductIndex(search, products, k);
            var rs := search(products[i], PollLimit).value;
            RunProducts(db, products, search, deliver).db.seen[k] == Entry(products[i], rs[FirstKeyIndex(rs, k)].published)
    ensures forall j :: 0 <= j < FirstProductIndex(search, products, k) ==> search(products[j], PollLimit).Success?
    decreases |products|
  {
    var c := RunProducts(db, products, search, deliver);
    var st := PollProduct(db, products[0], search, deliver);
    PollProductFirstWriter(db, products[0], search, deliver, k);
    if k in st.db.seen {
      assert FirstProductIndex(search, products, k) == 0;
      var rs := search(products[0], PollLimit).value;
      assert st.db.seen[k] == Entry(products[0], rs[FirstKeyIndex(rs, k)].published);
      if st.failure.None? {
        var rest := RunProducts(st.db, products[1..], search, deliver);
        assert c.db == rest.db;
        assert c.db.seen[k] == st.db.seen[k];
      } else {
        assert c.db == st.db;
      }
    } else if st.failure.None? {
      var tail := products[1..];
      var rest := RunProducts(st.db, tail, search, deliver);
      assert c.db == rest.db;
      assert !SurfacedBy(search, products[0], k);
      FirstProductWins(st.db, tail, search, deliver, k);
      var i := FirstProductIndex(search, tail, k);
      assert FirstProductIndex(search, products, k) == i + 1;
      ShiftedSearches(search, products, i);
    }
  }


  // ---- Falsy ids and message contents ----

  /** The candidates whose id is truthy, in order. */
  function DropFalsy(rs: seq<Record>): seq<Record> {
    if rs == [] then []
    else if Truthy(rs[0].id) then [rs[0]] + DropFalsy(rs[1..])
    else DropFalsy(rs[1..])
  }

  /** Candidates with a `None`, empty or otherwise falsy id play no part in a scan: removing
      them changes neither the ledger, nor the batch, nor the outcome. */
  lemma {:induction false} FalsyIdsIgnored(db: Db, product: string, rs: seq<Record>)
    ensures ScanRecords(db, product, rs) == ScanRecords(db, product, DropFalsy(rs))
    decreases |rs|
  {
    if rs != [] {
      var v := VisitRecord(db, product, rs[0]);
      FalsyIdsIgnored(v.db, product, rs[1..]);
      if Truthy(rs[0].id) {
        var t := DropFalsy(rs);
        assert t[0] == rs[0] && t[1..] == DropFalsy(rs[1..]);
      } else {
        FalsyIdsIgnored(db, product, rs[1..]);
      }
    }
  }


  /** Line `l` renders candidate `r`: its truthy id, its key and stamp, and the first
      `SummaryCap` characters of its summary. */
  predicate RendersRecord(l: Line, r: Record) {
    && Truthy(r.id)
    && KeyOf(r) == Some(l.key)
    && l.id == r.id
    && l.published == r.published
    && r.summary.Str?
    && l.summary == Truncate(r.summary.s)
  }

  /** Each line rendered from recordable candidates of `rs` renders one of `rs`. */
  lemma {:induction false} RenderedFromPairs(ps: seq<Accepted>, rs: seq<Record>)
    requires forall a :: a in ps ==> a.rec in rs && KeyOf(a.rec) == Some(a.key)
    ensures forall l :: l in Rendered(ps) ==> exists r :: r in rs && RendersRecord(l, r)
    decreases |ps|
  {
    if ps != [] {
      assert forall a :: a in ps[1..] ==> a in ps;
      RenderedFromPairs(ps[1..], rs);
      if LineOf(ps[0]).Success? {
        assert RendersRecord(LineOf(ps[0]).value, ps[0].rec);
      }
    }
  }

  /** Every line of every message a cycle sends renders one of that product's search
      results: falsy ids never appear, and no summary exceeds `SummaryCap` characters. */
  lemma SentLinesRenderResults(db: Db, search: Searcher, deliver: Deliver, m: Message, l: Line)
    requires m in RunOnce(db, search, deliver).sent && l in m.lines
    ensures search(m.product, PollLimit).Success?
    ensures exists r :: r in search(m.product, PollLimit).value && RendersRecord(l, r)
    ensures Truthy(l.id) && |l.summary| <= SummaryCap
  {
    RunProductsReports(db, ListProducts(db), search, deliver, m);
    var rs := search(m.product, PollLimit).value;
    SubseqMembers(m.lines, Candidates(rs));
    RenderedFromPairs(Pairs(rs), rs);
  }

  /** Messages of a cycle follow the order of `list_products()`. */
  lemma RunOnceOrdered(db: Db, search: Searcher, deliver: Deliver)
    ensures Lex.StrictlySorted(ProductsOf(RunOnce(db, search, deliver).sent))
  {
    RunProductsOrdered(db, ListProducts(db), search, deliver);
  }
}

=== FILE: scenario.dfy ===
/** A worked cycle: one watched product whose search returns the same CVE twice. */
module Scenario {
  import opened Outcome
  import opened Json
  import opened Store
  import opened Cve
  import opened Poll

  /** The `cve` object of the repeated result. */
  const Vuln: Value := Obj(map[
    "id" := Str("CVE-1"),
    "published" := Str("2024-01-01"),
    "descriptions" := Arr([Obj(map["value" := Str("heap overflow")])])])

  /** A response body listing the same vulnerability twice. */
  function RepeatedFeed(keyword: string, limit: nat): Result<Value> {
    Success(Obj(map["vulnerabilities" := Arr([Obj(map["cve" := Vuln]), Obj(map["cve" := Vuln])])]))
  }

  /** A notifier whose every post succeeds. */
  function AlwaysDelivered(m: Message): bool {
    true
  }

  /** The search both results come from. */
  function RepeatedSearch(keyword: string, limit: nat): Result<seq<Record>> {
    Search(RepeatedFeed, keyword, limit)
  }

  /** The record both results decode to. */
  const Rec: Record := Record(Str("CVE-1"), Str("2024-01-01"), Str("heap overflow"))

  const Item: Value := Obj(map["cve" := Vuln])

  /** The element decodes to its record. */
  lemma ItemDecodes()
    ensures DecodeItem(Item) == Success(Rec)
  {
    var cve := map["id" := Str("CVE-1"), "published" := Str("2024-01-01"),
                   "descriptions" := Arr([Obj(map["value" := Str("heap overflow")])])];
    assert FirstDescription(cve) == Success(Str("heap overflow"));
  }

  /** Both elements of the body decode to the same record. */
  lemma RepeatedFeedDecodes(keyword: string, limit: nat)
    ensures RepeatedSearch(keyword, limit) == Success([Rec, Rec])
  {
    ItemDecodes();
    assert [Item, Item][1..] == [Item];
    assert [Item][1..] == [];
    assert DecodeAll([Item][1..]) == Success([]);
    assert [Rec] + [] == [Rec];
    assert DecodeAll([Item]) == Success([Rec]);
    assert [Rec] + [Rec] == [Rec, Rec];
    assert DecodeAll([Item, Item]) == Success([Rec, Rec]);
    var body := map["vulnerabilities" := Arr([Item, Item])];
    assert Elements(Get(body, "vulnerabilities", Arr([]))) == Success([Item, Item]);
  }

  /** The second copy finds its id already recorded by the first. */
  lemma RepeatedScan(db: Db)
    requires db.seen == map[]
    ensures ScanRecords(db, "openssl", [Rec, Rec])
            == Scan(db.(seen := map["CVE-1" := Entry("openssl", Str("2024-01-01"))]), [Accepted("CVE-1", Rec)], None)
  {
    var after := db.(seen := map["CVE-1" := Entry("openssl", Str("2024-01-01"))]);
    assert KeyOf(Rec) == Some("CVE-1");
    assert VisitRecord(db, "openssl", Rec) == Visit(after, Some(Accepted("CVE-1", Rec)), None);
    assert VisitRecord(after, "openssl", Rec) == Visit(after, None, None);
    assert [Rec, Rec][1..] == [Rec];
    assert ScanRecords(after, "openssl", [Rec]) == Scan(after, [], None);
  }

  /** The one accepted record renders as one line with its summary whole. */
  lemma RepeatedLines()
    ensures FormatLines([Accepted("CVE-1", Rec)]) == Success([Line("CVE-1", Str("CVE-1"), Str("2024-01-01"), "heap overflow")])
  {
    var a := Accepted("CVE-1", Rec);
    var l := Line("CVE-1", Str("CVE-1"), Str("2024-01-01"), "heap overflow");
    assert Truncate("heap overflow") == "heap overflow";
    assert LineOf(a) == Success(l);
    assert [a][1..] == [];
    assert FormatLines([a][1..]) == Success([]);
    assert [l] + [] == [l];
  }

  /** Handling the product records the id once and sends one message with one line. */
  lemma RepeatedPoll(db: Db)
    requires db.seen == map[]
    ensures PollProduct(db, "openssl", RepeatedSearch, AlwaysDelivered)
            == Step(db.(seen := map["CVE-1" := Entry("openssl", Str("2024-01-01"))]),
                    Some(Message("openssl", [Line("CVE-1", Str("CVE-1"), Str("2024-01-01"), "heap overflow")])),
                    None)
  {
    RepeatedFeedDecodes("openssl", PollLimit);
    RepeatedScan(db);
    RepeatedLines();
  }

  /** A CVE returned twice in one search is recorded once and reported in a single line
      of a single message. */
  lemma RepeatedResultReportedOnce()
    ensures var c := RunOnce(Db(["openssl"], map[]), RepeatedSearch, AlwaysDelivered);
            && c.failure == None
            && c.db.seen == map["CVE-1" := Entry("openssl", Str("2024-01-01"))]
            && c.sent == [Message("openssl", [Line("CVE-1", Str("CVE-1"), Str("2024-01-01"), "heap overflow")])]
  {
    var db := Db(["openssl"], map[]);
    var after := db.(seen := map["CVE-1" := Entry("openssl", Str("2024-01-01"))]);
    assert ListProducts(db) == ["openssl"];
    RepeatedPoll(db);
    assert ["openssl"][1..] == [];
    assert RunProducts(after, [], RepeatedSearch, AlwaysDelivered) == Cycle(after, [], None);
  }
}

=== FILE: seqs.dfy ===
/** Generic facts about sequences used throughout the model. */
module Seqs {

  /** No element occurs twice. */
  predicate Distinct<T(==)>(s: seq<T>) {
    forall i, j :: 0 <= i < j < |s| ==> s[i] != s[j]
  }

  /** Joining two repetition-free sequences with no common element repeats nothing. */
  lemma DistinctConcat<T>(a: seq<T>, b: seq<T>)
    requires Distinct(a) && Distinct(b)
    requires forall x :: x in a ==> x !in b
    ensures Distinct(a + b)
  {
    forall i, j | 0 <= i < j < |a + b| ensures (a + b)[i] != (a + b)[j] {
      if i < |a| && j >= |a| {
        assert (a + b)[i] in a && (a + b)[j] == b[j - |a|];
      }
    }
  }

  /** A repetition-free sequence has as many elements as its set. */
  lemma {:induction false} DistinctCardinality<T>(s: seq<T>)
    requires Distinct(s)
    ensures |set x | x in s| == |s|
    decreases |s|
  {
    if s != [] {
      DistinctCardinality(s[1..]);
      var tail := set x | x in s[1..];
      assert (set x | x in s) == tail + {s[0]};
      assert s[0] !in tail;
    }
  }

  /** `a` is `b` with some elements left out, order kept. */
  predicate IsSubseq<T(==)>(a: seq<T>, b: seq<T>)
    decreases |b|
  {
    if a == [] then true
    else if b == [] then false
    else if a[0] == b[0] then IsSubseq(a[1..], b[1..])
    else IsSubseq(a, b[1..])
  }

  /** Putting an element in front of the longer sequence keeps the relation. */
  lemma {:induction false} SubseqCons<T>(a: seq<T>, x: T, b: seq<T>)
    requires IsSubseq(a, b)
    ensures IsSubseq(a, [x] + b)
    decreases |b|, 1
  {
    assert ([x] + b)[1..] == b;
    if a != [] && a[0] == x {
      SubseqTail(a, b);
    }
  }

  /** Putting the same element in front of both sequences keeps the relation. */
  lemma SubseqBoth<T>(x: T, a: seq<T>, b: seq<T>)
    requires IsSubseq(a, b)
    ensures IsSubseq([x] + a, [x] + b)
  {
    assert ([x] + a)[1..] == a;
    assert ([x] + b)[1..] == b;
  }

  /** Leaving out the first element of the shorter sequence keeps the relation. */
  lemma {:induction false} SubseqTail<T>(a: seq<T>, b: seq<T>)
    requires a != [] && IsSubseq(a, b)
    ensures IsSubseq(a[1..], b)
    decreases |b|, 0
  {
    if a[0] == b[0] {
      SubseqCons(a[1..], b[0], b[1..]);
    } else {
      SubseqTail(a, b[1..]);
      SubseqCons(a[1..], b[0], b[1..]);
    }
    assert [b[0]] + b[1..] == b;
  }

  /** Every element of a subsequence is an element of the whole. */
  lemma {:induction false} SubseqMembers<T>(a: seq<T>, b: seq<T>)
    requires IsSubseq(a, b)
    ensures forall x :: x in a ==> x in b
    decreases |b|
  {
    if a != [] {
      if a[0] == b[0] {
        SubseqMembers(a[1..], b[1..]);
        assert a == [a[0]] + a[1..];
      } else {
        SubseqMembers(a, b[1..]);
      }
    }
  }
}
